=== FILE: README.md ===
# Guide view controller navigation, modelled in Dafny

The repository is a single UIKit widget, `SIGuideViewController`: a paged app tour that
hosts child screens side by side in a horizontal scroll view, keeps two page controls in step
with the visible page (the second one cycling through three dots), advances to the next
page on a repeating timer and reports navigation to an optional delegate.

This project models the widget's page-navigation state machine without the view
hierarchy. A `Guide.Tour` is an immutable record of

- the added screens, in insertion order (only whether each is scroll-aware matters),
- `page`: the page the scroll view rests on (the controller's `currentPage`),
- `pending`: the target of an animated scroll started by `gotoPage` and not yet finished,
- `seconds`: the cosmetic countdown, and `timerActive`: whether the timer is scheduled,
- the optional delegate, with each of its four callbacks optional,
- the two optional page controls (`pageControl` as `primary`, `newPageControll` as `secondary`),
- `events`: the trace of delegate callbacks actually delivered.

Each operation of the controller is a pure function of a `Tour` (and its inputs):

- `GotoPage`, `NextPage`, `PrevPage` and `PageControlDidTouch` navigate. `TapPageControl` is the user's tap that moves the control's dot before its action runs.
- `Close` and `DismissWithSkip` report Close.
- `UpdateTimer` and `TimerFires` model the timer.
- `UpdateUI`, `Settle`, `EndDecelerating` and `ViewWillAppear` model the settle and appearance callbacks.
- `Add` appends a screen.
- `AdjustOffsetForTransition` re-requests the page captured when a rotation begins.

Module layout:

- `guide.dfy` (`Guide`): the state and every transition.
- `guide_scroll.dfy` (`GuideScroll`): the scroll-progress rule at rest.
- `guide_runs.dfy` (`GuideRuns`): repeated transitions, including the auto-advance (`SettledTicks`: a timer firing followed by the completion of its scroll).
- `guide_laws.dfy` (`GuideLaws`): laws that relate several transitions.
- `modular.dfy` (`Modular`): remainder arithmetic used by the wrap-around proofs.

Modelling decisions:

- The controller computes `currentPage` from the float scroll offset. Here it is the integer field `page`.
- An animated scroll is a request (`pending`). `Settle` is the moment
  `scrollViewDidEndScrollingAnimation` fires: the request is committed and `updateUI` runs.
  A new request replaces an unfinished one.
- The scroll view never rests outside its content. So `Settle` lands a target below 0 on page 0 (`Guide.RestPage`).
  The missing lower bound in `gotoPage` is therefore visible as an accepted request for page -1 when there are no screens.
  It never shows up as a negative `currentPage`.
- A delegate callback that is missing, or a missing delegate, adds nothing to the trace. A
  missing page control makes the assignments to it no-ops.
- Which initializer ran is a construction parameter of `Guide.Init`. Only `init(coder:)` starts the timer and turns paging on.
- Swift's `%` truncates and Dafny's is Euclidean. They agree here because `page` is never negative.

## Model

| member | source | states |
|---|---|---|
| Guide.Init | AppLanding/SIGuideViewController.swift:89-99 | a new controller has no screens, rests on page 0, has the countdown at 1000, has the timer running exactly when the storyboard initializer was used, holds the delegate and page controls it was given, and satisfies the invariant |
| Guide.Add | AppLanding/SIGuideViewController.swift:168-169 | adding a screen appends it after the existing ones and keeps their order; every other part of the state is unchanged; the invariant is preserved |
| Guide.GotoPage | AppLanding/SIGuideViewController.swift:160-166 | a request at or above the number of screens changes nothing; any request below it, negative ones included, becomes the pending scroll target and nothing else changes |
| GuideLaws.GotoPageBoundIsOneSided | AppLanding/SIGuideViewController.swift:160-166 | a request is accepted exactly when it is below the number of screens; with no screens page 0 is refused while page -1 is accepted |
| GuideLaws.GotoPageLands | AppLanding/SIGuideViewController.swift:160-166 | an accepted request for an existing page, once its scroll completes, rests on that page and keeps the invariant |
| Guide.NextPage | AppLanding/SIGuideViewController.swift:125-134 | reports Next exactly once when the delegate implements it, then requests page (p+1) mod n; with no screens the request is refused; only the request and the trace change |
| Guide.PrevPage | AppLanding/SIGuideViewController.swift:137-146 | reports Prev exactly once when the delegate implements it, then requests page (p-1) mod n; with no screens it requests page -1; only the request and the trace change |
| GuideLaws.NextLandsOnFollowing | AppLanding/SIGuideViewController.swift:125-134 | a settled nextPage lands on (p+1) mod n after one Next report and one page-change report |
| GuideLaws.NextTargetsLaw | AppLanding/SIGuideViewController.swift:126-132 | following nextPage's choice of page k times from p leads to (p+k) mod n |
| GuideLaws.AdvanceFollowsTargets | AppLanding/SIGuideViewController.swift:125-134 | k settled nextPage calls land where nextPage's choice, followed k times, leads, and keep the invariant |
| GuideLaws.AdvanceLaw | AppLanding/SIGuideViewController.swift:125-134 | after k settled nextPage calls the page is (p+k) mod n |
| GuideLaws.TargetsCycle | AppLanding/SIGuideViewController.swift:126-132 | following nextPage's choice once per screen returns to the starting page |
| GuideLaws.FullCycleReturns | AppLanding/SIGuideViewController.swift:125-134 | with n >= 1 screens, n settled nextPage calls return to the starting page, in particular from page 0 to page 0 |
| GuideLaws.PrevFromFirstLandsOnLast | AppLanding/SIGuideViewController.swift:137-146 | a settled prevPage from page 0 lands on page n-1 after one Prev and one page-change report |
| GuideLaws.PrevUndoesNext | AppLanding/SIGuideViewController.swift:125-146 | a settled prevPage undoes a settled nextPage and the other way round |
| GuideLaws.PrevOnEmptyRequestsMinusOne | AppLanding/SIGuideViewController.swift:142-145 | with no screens prevPage requests page -1, the request passes the guard, and the scroll still rests on page 0 |
| GuideLaws.ThreeScreenTour | AppLanding/SIGuideViewController.swift:125-134 | with three screens three settled nextPage calls from page 0 visit 1, 2, 0 and report Next, 1, Next, 2, Next, 0 |
| Guide.Close | AppLanding/SIGuideViewController.swift:150-152 | close only reports Close (when implemented) and changes nothing else |
| Guide.DismissWithSkip | AppLanding/SIGuideViewController.swift:243-246 | dismiss-with-skip leaves the timer inactive, reports Close once when implemented, and keeps page, request and countdown |
| GuideLaws.DismissIsCloseWithoutTimer | AppLanding/SIGuideViewController.swift:243-246 | dismiss-with-skip is close plus stopping the timer; close keeps the page, the request and the timer; after dismissal a timer firing changes nothing |
| Guide.TapPageControl | AppLanding/SIGuideViewController.swift:103 | a tap moves the connected primary control's dot to the tapped dot, pinned within its dots (below 0 to dot 0, past the last to the last dot, and to dot 0 when it has none); without the control nothing happens; nothing but the control changes |
| GuideLaws.TapThenTouchLands | AppLanding/SIGuideViewController.swift:154-158 | after appearance, tapping a dot that names a screen, running the touch-up action and settling lands on that screen with both controls showing it |
| Guide.PageControlDidTouch | AppLanding/SIGuideViewController.swift:154-158 | without a page control nothing happens; with one the dot it shows is requested through gotoPage |
| GuideLaws.PageControlTouchLands | AppLanding/SIGuideViewController.swift:154-158 | touching a page control whose dot names a screen, then settling, lands on that page and the control keeps showing it |
| Guide.UpdateUI | AppLanding/SIGuideViewController.swift:198-202 | the primary control shows the page, the secondary one shows a dot in 0..2 congruent to the page modulo 3, exactly one PageDidChange(page) is reported when implemented, navigation and timer state are untouched |
| Guide.Settle | AppLanding/SIGuideViewController.swift:219-221 | when the animated scroll completes the requested page becomes current (a negative request rests on page 0) and the request is cleared; each connected control stays connected, keeps its number of dots and shows the new page (the secondary one modulo 3); one PageDidChange report is added when implemented; screens, countdown, timer and delegate are unchanged; the invariant holds |
| GuideLaws.SettleSyncsIndicators | AppLanding/SIGuideViewController.swift:198-202 | after a settle the secondary control shows the primary control's dot modulo 3 |
| Guide.EndDecelerating | AppLanding/SIGuideViewController.swift:215-217 | a drag that comes to rest on page k makes k current and cancels any request; each connected control stays connected, keeps its number of dots and shows k (the secondary one modulo 3); PageDidChange(k) is reported once when implemented; screens, countdown, timer and delegate are unchanged |
| Guide.ViewWillAppear | AppLanding/SIGuideViewController.swift:111-119 | appearance reports the current page once, then resets the primary control to n dots at dot 0 and the secondary to 3 dots at dot 0, whatever the current page; nothing else in the state changes |
| Guide.CountDown | AppLanding/SIGuideViewController.swift:53-56 | one decrement keeps the countdown within 1..1000 and lowers it by one modulo 1000 |
| Guide.UpdateTimer | AppLanding/SIGuideViewController.swift:52-58 | a firing counts down within 1..1000, then performs exactly one nextPage, which reports Next once when implemented |
| Guide.TimerFires | AppLanding/SIGuideViewController.swift:48-50 | a timer that is not scheduled never fires; a scheduled one runs updateTimer |
| GuideLaws.CountDownsLaw | AppLanding/SIGuideViewController.swift:53-56 | k decrements from s in 1..1000 give ((s-1-k) mod 1000) + 1 |
| GuideLaws.TicksLaw | AppLanding/SIGuideViewController.swift:52-58 | k firings with no scroll completing between them count down k times, keep the invariant, report one Next per firing and leave the settled page alone |
| GuideLaws.SettledTicksLaw | AppLanding/SIGuideViewController.swift:52-58 | k firings, each followed by the completion of the scroll it requested, keep the invariant and the screens, count the countdown down k times and move the page as k settled nextPage calls do |
| GuideLaws.AutoAdvanceLaw | AppLanding/SIGuideViewController.swift:44-58 | the auto-advance: after k firings, each completing its scroll, the page is (page + k) mod the number of screens and the countdown is ((s-1-k) mod 1000) + 1 |
| GuideLaws.ThousandTicksRestoreCountdown | AppLanding/SIGuideViewController.swift:44-57 | any multiple of 1000 firings restores the countdown and reports Next once per firing |
| Guide.AdjustOffsetForTransition | AppLanding/SIGuideViewController.swift:223-231 | after a rotation the page captured when it began is requested again and nothing else changes; the request is refused, leaving the state as it was, when it no longer names a screen |
| GuideScroll.DidScrollAtRest | AppLanding/SIGuideViewController.swift:204-213 | with the offset exactly on page p (p times the width) exactly the scroll-aware screens p, p+1 and p+2 are told, in screen order, with offset p times the width and progress p+1-i; screen p gets progress 1; a zero width tells nobody |

## Left out

- The view hierarchy and auto-layout constraints built in `viewDidLoad` and `add` are not modelled. They have no behaviour to state beyond "appended in order", which `Guide.Add` states.
- Turning the float scroll offset into a page, and scroll progress at offsets between pages, are not modelled. Both are floating-point arithmetic. The page is an integer and progress is modelled only at rest.
- The timer's 3-second interval and the 0.1-second delay before the re-scroll after a rotation are not modelled. A firing is an explicit step (`TimerFires`). The deferred re-scroll is `AdjustOffsetForTransition` applied to the later state.
- A timer firing during a drag or an unfinished animation is not modelled as a race. Steps are strictly sequential. `NextPage` reads the last settled page, not an offset part-way through a scroll.
- The weak delegate's lifetime and Objective-C optional dispatch are not modelled. They become an optional delegate whose missing callbacks add nothing to the trace.
- Delegate callbacks are assumed not to act on the controller. `nextPage` and `prevPage` re-read `currentPage` after reporting (AppLanding/SIGuideViewController.swift:127-128, 139-140), the scroll view is public (line 85) and the methods are `open`, so a delegate that scrolls or calls back into the controller could change the page they request; the model reports and then requests from the page read before the report.
- Only `init(coder:)` turns paging on (AppLanding/SIGuideViewController.swift:92). With `init(nibName:bundle:)` a drag can stop between pages. `GuideScroll.DidScrollAtRest` covers only offsets that are exact page boundaries: every stop of the paging scroll view, and the end of every `gotoPage` scroll.
- `currentViewController` is left out. It is an array lookup that needs at least one screen and has no behaviour of its own.
- `UIPageControl` pins the current dot to its number of dots. The model pins a user's tap (`TapPageControl`), but for the controller's own assignments in `updateUI` it records the value assigned, not the pinned value. A tap is modelled as choosing a dot directly; the control's move by one dot towards the tapped side is not modelled.
- Guide.Settle: whether UIKit reports the end of an animation when the target is already visible, or lies outside the content, is not modelled. Every request is assumed to complete with exactly one `updateUI`, landing inside the content.
- Guide.EndDecelerating: the page a drag rests on is a parameter. The scroll view keeps its offset inside the content, and the model asks for that as a precondition.

=== FILE: guide.dfy ===
/** The page-navigation state machine of the guide (app tour) view controller.

    The controller hosts a horizontal row of child screens in a horizontal scroll view,
    keeps two page indicators in step with the visible page, advances on a repeating
    timer and reports navigation to an optional delegate. Stripped of the view
    hierarchy this is a small integer state machine; each operation of the controller
    is a pure transition on an immutable `Tour` record.

    The page shown at rest (`currentPage`, derived from the scroll offset) is the field
    `page`. An animated scroll started by `GotoPage` is recorded as a pending request;
    `Settle` is the moment the animation completes, which commits the request and then
    synchronises the indicators.
 */
module Guide {
  import opened Modular

  datatype Option<T> = None | Some(value: T)

  /** A child screen; all the controller asks of it is whether it adopts the
      scroll-aware page protocol. */
  datatype Screen = Screen(scrollAware: bool)

  /** The delegate's four optional callbacks; `false` means the delegate does not
      implement that method, so calling it is a silent no-op. */
  datatype Delegate = Delegate(onClose: bool, onNext: bool, onPrev: bool, onPageDidChange: bool)

  /** A callback delivered to the delegate. */
  datatype Event = CloseButtonPressed | NextButtonPressed | PrevButtonPressed | PageDidChange(page: int)

  /** A page control: its number of dots and the highlighted dot. */
  datatype Indicator = Indicator(pages: int, current: int)

  datatype Tour = Tour(
    screens: seq<Screen>,        // added child screens, in insertion order
    page: nat,                   // currentPage: the page the scroll view rests on
    pending: Option<int>,        // target of an animated scroll not yet completed
    seconds: int,                // the cosmetic countdown
    timerActive: bool,           // the repeating timer is scheduled and not invalidated
    delegate: Option<Delegate>,  // the weakly held delegate, if any
    primary: Option<Indicator>,  // pageControl outlet, if connected
    secondary: Option<Indicator>,// newPageControll outlet, if connected
    events: seq<Event>)          // callbacks delivered so far
  {
    /** numberOfPages */
    function Count(): nat { |screens| }
  }

  /** The countdown starts at, and resets to, this value. */
  const SecondsReset := 1000

  /** The secondary indicator cycles through this many dots. */
  const SecondaryDots := 3

  /** The highest page the scroll view can rest on: its content is `n` screens wide,
      and an empty content still rests at offset 0. */
  function LastRestPage(n: nat): nat
  {
    if n == 0 then 0 else n - 1
  }

  /** The invariant every reachable state keeps. */
  predicate Valid(t: Tour)
  {
    && 1 <= t.seconds <= SecondsReset
    && t.page <= LastRestPage(t.Count())
    && (t.pending.Some? ==> t.pending.value < t.Count())
  }

  /** Whether the delegate (if present) implements the handler for `e`. */
  predicate Handles(d: Option<Delegate>, e: Event)
  {
    d.Some? &&
    match e
    case CloseButtonPressed => d.value.onClose
    case NextButtonPressed => d.value.onNext
    case PrevButtonPressed => d.value.onPrev
    case PageDidChange(_) => d.value.onPageDidChange
  }

  /** What calling `delegate?.handler?(…)` adds to the trace: `e` or nothing. */
  function Delivered(d: Option<Delegate>, e: Event): (r: seq<Event>)
    ensures |r| <= 1
    ensures r == [e] <==> Handles(d, e)
    ensures r == [] <==> !Handles(d, e)
  {
    if Handles(d, e) then [e] else []
  }

  function Notify(t: Tour, e: Event): (r: Tour)
  {
    t.(events := t.events + Delivered(t.delegate, e))
  }

  function SetCurrent(ind: Option<Indicator>, v: int): (r: Option<Indicator>)
    ensures r.Some? <==> ind.Some?
    ensures r.Some? ==> r.value.current == v && r.value.pages == ind.value.pages
  {
    match ind
    case None => None
    case Some(i) => Some(i.(current := v))
  }

  function Configure(ind: Option<Indicator>, pages: int, v: int): (r: Option<Indicator>)
    ensures r.Some? <==> ind.Some?
    ensures r.Some? ==> r.value == Indicator(pages, v)
  {
    match ind
    case None => None
    case Some(_) => Some(Indicator(pages, v))
  }

  /** A freshly constructed controller with no screens. Only the storyboard
      initializer starts the timer, so `startsTimer` records which one was used. */
  function Init(startsTimer: bool, delegate: Option<Delegate>,
                primary: Option<Indicator>, secondary: Option<Indicator>): (r: Tour)
    ensures Valid(r)
    ensures r.Count() == 0 && r.page == 0 && r.pending == None && r.events == []
    ensures r.seconds == SecondsReset
    ensures r.timerActive == startsTimer
    ensures r.delegate == delegate && r.primary == primary && r.secondary == secondary
  {
    Tour([], 0, None, SecondsReset, startsTimer, delegate, primary, secondary, [])
  }

  /** `add(viewController:)`: appends a screen after the previously last one. */
  function Add(t: Tour, s: Screen): (r: Tour)
    ensures r.Count() == t.Count() + 1
    ensures r.screens[..t.Count()] == t.screens && r.screens[t.Count()] == s
    ensures r == t.(screens := r.screens)
    ensures Valid(t) ==> Valid(r)
  {
    t.(screens := t.screens + [s])
  }

  /** `gotoPage`: starts an animated scroll to `k` when `k` is below the number of
      screens. There is no check that `k` is non-negative. */
  function GotoPage(t: Tour, k: int): (r: Tour)
    ensures k >= t.Count() ==> r == t
    ensures k < t.Count() ==> r.pending == Some(k) && r == t.(pending := Some(k))
    ensures Valid(t) ==> Valid(r)
  {
    if k < t.Count() then t.(pending := Some(k)) else t
  }

  /** The page `nextPage` asks for from page `p` of `n`: the following one, or 0
      after the last. */
  function NextTarget(p: int, n: int): (r: int)
  {
    if p + 1 < n then p + 1 else 0
  }

  /** The page `prevPage` asks for from page `p` of `n`: the preceding one, or the
      last one before the first. */
  function PrevTarget(p: int, n: int): (r: int)
  {
    if p > 0 then p - 1 else n - 1
  }

  /** `nextPage`: reports Next, then requests the following page, wrapping to 0. */
  function NextPage(t: Tour): (r: Tour)
    ensures r.events == t.events + Delivered(t.delegate, NextButtonPressed)
    ensures r == t.(pending := r.pending, events := r.events)
    ensures 0 < t.Count() && t.page < t.Count() ==>
              r.pending == Some((t.page + 1) % t.Count())
    ensures t.Count() == 0 ==> r.pending == t.pending
    ensures Valid(t) ==> Valid(r)
  {
    WrapBelow(t.page + 1, t.Count());
    GotoPage(Notify(t, NextButtonPressed), NextTarget(t.page, t.Count()))
  }

  /** `prevPage`: reports Prev, then requests the preceding page, wrapping to the
      last one. With no screens the request is page -1, which `GotoPage` accepts. */
  function PrevPage(t: Tour): (r: Tour)
    ensures r.events == t.events + Delivered(t.delegate, PrevButtonPressed)
    ensures r == t.(pending := r.pending, events := r.events)
    ensures 0 < t.Count() && t.page < t.Count() ==>
              r.pending == Some((t.page + t.Count() - 1) % t.Count())
    ensures t.Count() == 0 && t.page == 0 ==> r.pending == Some(-1)
    ensures Valid(t) ==> Valid(r)
  {
    WrapBelow(PrevTarget(t.page, t.Count()), t.Count());
    GotoPage(Notify(t, PrevButtonPressed), PrevTarget(t.page, t.Count()))
  }

  /** `close(_:)`: reports Close and does nothing else. */
  function Close(t: Tour): (r: Tour)
    ensures r == t.(events := t.events + Delivered(t.delegate, CloseButtonPressed))
  {
    Notify(t, CloseButtonPressed)
  }

  /** `didDismissWithSkipSubscription`: invalidates the timer, then reports Close. */
  function DismissWithSkip(t: Tour): (r: Tour)
    ensures !r.timerActive
    ensures r.events == t.events + Delivered(t.delegate, CloseButtonPressed)
    ensures r.page == t.page && r.pending == t.pending && r.seconds == t.seconds
    ensures Valid(t) ==> Valid(r)
  {
    Notify(t.(timerActive := false), CloseButtonPressed)
  }

  /** A tap on the primary page control, before its touch-up action runs: the control
      moves its highlighted dot to `d`, pinned to its range of dots (dot 0 when it has
      none). Without the
      control connected nothing happens. */
  function TapPageControl(t: Tour, d: int): (r: Tour)
    ensures t.primary.None? ==> r == t
    ensures t.primary.Some? && 0 <= d < t.primary.value.pages ==>
              r.primary == Some(t.primary.value.(current := d))
    ensures r.primary.Some? ==> 0 <= r.primary.value.current
    ensures r.primary.Some? && t.primary.value.pages > 0 ==>
              r.primary.value.current < t.primary.value.pages
    ensures t.primary.Some? && (d < 0 || t.primary.value.pages <= 0) ==>
              r.primary == Some(t.primary.value.(current := 0))
    ensures t.primary.Some? && 0 < t.primary.value.pages <= d ==>
              r.primary == Some(t.primary.value.(current := t.primary.value.pages - 1))
    ensures r == t.(primary := r.primary)
  {
    match t.primary
    case None => t
    case Some(pc) =>
      var dot := if d < 0 || pc.pages <= 0 then 0 else if d < pc.pages then d else pc.pages - 1;
      t.(primary := Some(pc.(current := dot)))
  }

  /** `pageControlDidTouch`: navigates to the dot the primary indicator shows, when
      that indicator is connected. */
  function PageControlDidTouch(t: Tour): (r: Tour)
    ensures t.primary.None? ==> r == t
    ensures t.primary.Some? ==> r == GotoPage(t, t.primary.value.current)
  {
    match t.primary
    case None => t
    case Some(pc) => GotoPage(t, pc.current)
  }

  /** `updateUI`: highlights the current page on both indicators (the secondary one
      modulo three) and reports the page. */
  function UpdateUI(t: Tour): (r: Tour)
    ensures r.primary.Some? <==> t.primary.Some?
    ensures r.primary.Some? ==> r.primary.value == t.primary.value.(current := t.page)
    ensures r.secondary.Some? <==> t.secondary.Some?
    ensures r.secondary.Some? ==>
              && 0 <= r.secondary.value.current < SecondaryDots
              && (t.page - r.secondary.value.current) % SecondaryDots == 0
              && r.secondary.value.pages == t.secondary.value.pages
    ensures r.events == t.events + Delivered(t.delegate, PageDidChange(t.page))
    ensures r.page == t.page && r.pending == t.pending && r.screens == t.screens
    ensures r.seconds == t.seconds && r.timerActive == t.timerActive && r.delegate == t.delegate
  {
    var indicators := t.(secondary := SetCurrent(t.secondary, t.page % SecondaryDots),
                         primary := SetCurrent(t.primary, t.page));
    Notify(indicators, PageDidChange(t.page))
  }

  /** Where a scroll aimed at page `k` comes to rest: the scroll view keeps its
      offset within its content, so a target below 0 rests on page 0. */
  function RestPage(n: nat, k: int): (r: nat)
    ensures r <= LastRestPage(n)
    ensures 0 <= k <= LastRestPage(n) ==> r == k
  {
    if k < 0 then 0 else if k <= LastRestPage(n) then k else LastRestPage(n)
  }

  /** `scrollViewDidEndScrollingAnimation`: the animated scroll completes on the
      requested page, then `updateUI` runs. */
  function Settle(t: Tour): (r: Tour)
    ensures r.pending == None
    ensures t.pending.Some? && 0 <= t.pending.value < t.Count() ==> r.page == t.pending.value
    ensures t.pending.None? ==> r.page == t.page
    ensures r.events == t.events + Delivered(t.delegate, PageDidChange(r.page))
    ensures r.primary.Some? ==> r.primary.value.current == r.page
    ensures r.secondary.Some? ==> r.secondary.value.current == r.page % SecondaryDots
    ensures (r.primary.Some? <==> t.primary.Some?) && (r.secondary.Some? <==> t.secondary.Some?)
    ensures r.primary.Some? ==> r.primary.value == t.primary.value.(current := r.page)
    ensures r.secondary.Some? ==> r.secondary.value.pages == t.secondary.value.pages
    ensures t.pending.Some? && t.pending.value < 0 ==> r.page == 0
    ensures r == t.(page := r.page, pending := r.pending, primary := r.primary,
                    secondary := r.secondary, events := r.events)
    ensures Valid(t) ==> Valid(r)
  {
    var landed := match t.pending
      case Some(k) => RestPage(t.Count(), k)
      case None => t.page;
    UpdateUI(t.(page := landed, pending := None))
  }

  /** `scrollViewDidEndDecelerating`: a drag by the user comes to rest on page `k`
      (the scroll view keeps its offset inside the content), cancelling any animated scroll, then
      `updateUI` runs. */
  function EndDecelerating(t: Tour, k: nat): (r: Tour)
    requires k <= LastRestPage(t.Count())
    ensures r.page == k && r.pending == None
    ensures r.events == t.events + Delivered(t.delegate, PageDidChange(k))
    ensures r.primary.Some? ==> r.primary.value.current == k
    ensures r.secondary.Some? ==> r.secondary.value.current == k % SecondaryDots
    ensures (r.primary.Some? <==> t.primary.Some?) && (r.secondary.Some? <==> t.secondary.Some?)
    ensures r.primary.Some? ==> r.primary.value == t.primary.value.(current := r.page)
    ensures r.secondary.Some? ==> r.secondary.value.pages == t.secondary.value.pages
    ensures r == t.(page := r.page, pending := r.pending, primary := r.primary,
                    secondary := r.secondary, events := r.events)
    ensures Valid(t) ==> Valid(r)
  {
    UpdateUI(t.(page := k, pending := None))
  }

  /** `viewWillAppear`: runs `updateUI`, then resets both indicators to their first
      dot: the primary one gets a dot per screen, the secondary one three. */
  function ViewWillAppear(t: Tour): (r: Tour)
    ensures r.primary.Some? <==> t.primary.Some?
    ensures r.primary.Some? ==> r.primary.value == Indicator(t.Count(), 0)
    ensures r.secondary.Some? <==> t.secondary.Some?
    ensures r.secondary.Some? ==> r.secondary.value == Indicator(SecondaryDots, 0)
    ensures r.events == t.events + Delivered(t.delegate, PageDidChange(t.page))
    ensures r == t.(primary := r.primary, secondary := r.secondary, events := r.events)
    ensures Valid(t) ==> Valid(r)
  {
    var synced := UpdateUI(t);
    synced.(primary := Configure(synced.primary, t.Count(), 0),
            secondary := Configure(synced.secondary, SecondaryDots, 0))
  }

  /** One decrement of the countdown, resetting when it reaches zero. */
  function CountDown(s: int): (r: int)
    ensures 1 <= s <= SecondsReset ==> 1 <= r <= SecondsReset
    ensures r % SecondsReset == (s - 1) % SecondsReset
  {
    if s - 1 == 0 then SecondsReset else s - 1
  }

  /** `updateTimer`: one firing of the timer; counts down, then calls `nextPage`. */
  function UpdateTimer(t: Tour): (r: Tour)
    ensures 1 <= t.seconds <= SecondsReset ==> 1 <= r.seconds <= SecondsReset
    ensures r.seconds % SecondsReset == (t.seconds - 1) % SecondsReset
    ensures r.events == t.events + Delivered(t.delegate, NextButtonPressed)
    ensures r == NextPage(t.(seconds := r.seconds))
    ensures Valid(t) ==> Valid(r)
  {
    NextPage(t.(seconds := CountDown(t.seconds)))
  }

  /** The run loop fires the timer only while it has not been invalidated. */
  function TimerFires(t: Tour): (r: Tour)
    ensures !t.timerActive ==> r == t
    ensures t.timerActive ==> r == UpdateTimer(t)
  {
    if t.timerActive then UpdateTimer(t) else t
  }

  /** `adjustOffsetForTransition`: the page captured in `before`, when the size or
      trait transition begins, is requested again on the later state `now`. */
  function AdjustOffsetForTransition(before: Tour, now: Tour): (r: Tour)
    ensures before.page < now.Count() ==> r == now.(pending := Some(before.page))
    ensures before.page >= now.Count() ==> r == now
    ensures Valid(now) ==> Valid(r)
  {
    GotoPage(now, before.page)
  }
}

=== FILE: guide_laws.dfy ===
/** Laws of the guide's navigation state machine that relate several transitions:
    wrap-around at both ends, the one-sided bound of `GotoPage`, and the countdown's
    reset-at-zero cycle.
 */
module GuideLaws {
  import opened Guide
  import opened GuideRuns
  import opened Modular

  /** A settled `nextPage` lands on the following page modulo the number of screens,
      after exactly one Next report and one page-change report. */
  lemma NextLandsOnFollowing(t: Tour)
    requires Valid(t) && t.Count() > 0
    ensures Valid(NextAndSettle(t))
    ensures NextAndSettle(t).page == NextTarget(t.page, t.Count()) == (t.page + 1) % t.Count()
    ensures NextAndSettle(t).screens == t.screens
    ensures NextAndSettle(t).events ==
              t.events + Delivered(t.delegate, NextButtonPressed)
                       + Delivered(t.delegate, PageDidChange(NextAndSettle(t).page))
  {
  }

  /** Following `nextPage`'s choice `k` times from a page advances it by `k`
      modulo the number of screens. */
  lemma {:induction false} NextTargetsLaw(p: int, n: int, k: nat)
    requires 0 <= p < n
    ensures NextTargets(p, n, k) == (p + k) % n
    decreases k
  {
    if k == 0 {
      WrapBelow(p, n);
    } else {
      NextTargetsLaw(NextTarget(p, n), n, k - 1);
      if p + 1 < n {
        WrapBelow(p + 1, n);
      } else {
        AddTurn(k - 1, n);
      }
    }
  }

  /** `k` settled `nextPage` calls land where `nextPage`'s choice, followed `k`
      times, leads, and keep the state valid. */
  lemma {:induction false} AdvanceFollowsTargets(t: Tour, k: nat)
    requires Valid(t) && t.Count() > 0
    ensures Valid(Advance(t, k)) && Advance(t, k).screens == t.screens
    ensures Advance(t, k).page == NextTargets(t.page, t.Count(), k)
    decreases k
  {
    if k > 0 {
      var u := NextAndSettle(t);
      assert u.page == NextTarget(t.page, t.Count()) && Valid(u) && u.screens == t.screens by {
        NextLandsOnFollowing(t);
      }
      AdvanceFollowsTargets(u, k - 1);
    }
  }

  /** After `k` settled `nextPage` calls the page has advanced by `k` modulo the
      number of screens. */
  lemma AdvanceLaw(t: Tour, k: nat)
    requires Valid(t) && t.Count() > 0
    ensures Valid(Advance(t, k))
    ensures Advance(t, k).page == (t.page + k) % t.Count()
  {
    AdvanceFollowsTargets(t, k);
    NextTargetsLaw(t.page, t.Count(), k);
  }

  /** Following `nextPage`'s choice once per screen comes back to the start. */
  lemma TargetsCycle(p: int, n: int)
    requires 0 <= p < n
    ensures NextTargets(p, n, n) == p
  {
    NextTargetsLaw(p, n, n);
    OneTurnBack(NextTargets(p, n, n), p, n);
  }

  /** With at least one screen, as many settled `nextPage` calls as there are
      screens come back to the starting page; from page 0 they come back to 0. */
  lemma FullCycleReturns(t: Tour)
    requires Valid(t) && t.Count() > 0
    ensures Advance(t, t.Count()).page == t.page
  {
    AdvanceFollowsTargets(t, t.Count());
    TargetsCycle(t.page, t.Count());
  }

  /** A settled `prevPage` from the first page wraps to the last page. */
  lemma PrevFromFirstLandsOnLast(t: Tour)
    requires Valid(t) && t.Count() > 0 && t.page == 0
    ensures Settle(PrevPage(t)).page == t.Count() - 1
    ensures Settle(PrevPage(t)).events ==
              t.events + Delivered(t.delegate, PrevButtonPressed)
                       + Delivered(t.delegate, PageDidChange(t.Count() - 1))
  {
  }

  /** A settled `prevPage` undoes a settled `nextPage`, and the other way round:
      the two wrap-arounds are inverse to each other. */
  lemma PrevUndoesNext(t: Tour)
    requires Valid(t) && t.Count() > 0
    ensures Settle(PrevPage(NextAndSettle(t))).page == t.page
    ensures NextAndSettle(Settle(PrevPage(t))).page == t.page
  {
  }

  /** `GotoPage` accepts exactly the requests below the number of screens; the lower
      end is never checked, so with no screens the request -1 issued by `prevPage`
      gets through, while page 0 is refused. */
  lemma GotoPageBoundIsOneSided(t: Tour, k: int)
    requires Valid(t)
    ensures GotoPage(t, k).pending == Some(k) <==> k < t.Count()
    ensures k < t.Count() ==> GotoPage(t, k).page == t.page
    ensures t.Count() == 0 ==> GotoPage(t, 0) == t && GotoPage(t, -1).pending == Some(-1)
  {
  }

  /** With no screens, a settled `prevPage` reports Prev, requests page -1, and the
      scroll view still rests on page 0. */
  lemma PrevOnEmptyRequestsMinusOne(t: Tour)
    requires Valid(t) && t.Count() == 0
    ensures PrevPage(t).pending == Some(-1)
    ensures Settle(PrevPage(t)).page == 0
    ensures Settle(PrevPage(t)).events ==
              t.events + Delivered(t.delegate, PrevButtonPressed)
                       + Delivered(t.delegate, PageDidChange(0))
  {
  }

  /** An accepted `GotoPage` that completes lands on the requested page. */
  lemma GotoPageLands(t: Tour, k: int)
    requires Valid(t) && 0 <= k < t.Count()
    ensures Settle(GotoPage(t, k)).page == k
    ensures Valid(Settle(GotoPage(t, k)))
  {
  }

  /** After `k` decrements from a value in 1..1000 the countdown is `k` below it,
      counted cyclically within 1..1000. */
  lemma {:induction false} CountDownsLaw(s: int, k: nat)
    requires 1 <= s <= SecondsReset
    ensures CountDowns(s, k) == (s - 1 - k) % SecondsReset + 1
    decreases k
  {
    if k > 0 {
      CountDownsLaw(CountDown(s), k - 1);
      if s == 1 {
        AddTurn(-(k as int), SecondsReset);
      }
    }
  }

  /** `k` firings of the timer with no scroll completing in between count down `k`
      times, keep the countdown within 1..1000, report one Next per firing and leave
      the settled page alone. */
  lemma {:induction false} TicksLaw(t: Tour, k: nat)
    requires Valid(t)
    ensures Valid(Ticks(t, k))
    ensures Ticks(t, k).seconds == CountDowns(t.seconds, k)
    ensures Ticks(t, k).events == t.events + Repeat(Delivered(t.delegate, NextButtonPressed), k)
    ensures Ticks(t, k).page == t.page && Ticks(t, k).delegate == t.delegate
    decreases k
  {
    if k > 0 {
      var u := UpdateTimer(t);
      TicksLaw(u, k - 1);
      var once := Delivered(t.delegate, NextButtonPressed);
      assert t.events + once + Repeat(once, k - 1) == t.events + Repeat(once, k);
    }
  }

  /** Every thousand firings of the timer bring the countdown back to where it
      started. */
  lemma ThousandTicksRestoreCountdown(t: Tour, k: nat)
    requires Valid(t) && k % SecondsReset == 0
    ensures Ticks(t, k).seconds == t.seconds
    ensures |Ticks(t, k).events| ==
              |t.events| + (if Handles(t.delegate, NextButtonPressed) then k else 0)
  {
    TicksLaw(t, k);
    CountDownsLaw(t.seconds, k);
    DivMod(k, SecondsReset);
    ModUnique(t.seconds - 1 - k, SecondsReset, -(k / SecondsReset), t.seconds - 1);
  }

  /** After a settle both indicators agree: the secondary one shows the primary one's
      page modulo three (page 4 shows dot 1). */
  lemma SettleSyncsIndicators(t: Tour)
    requires Valid(t)
    ensures var r := Settle(t);
      r.primary.Some? && r.secondary.Some? ==>
        r.secondary.value.current == r.primary.value.current % SecondaryDots
  {
  }

  /** Three screens, every delegate method implemented: three settled `nextPage`
      calls from page 0 visit pages 1, 2 and 0, each reporting Next and then the
      new page exactly once. */
  lemma ThreeScreenTour(t: Tour)
    requires Valid(t) && t.Count() == 3 && t.page == 0 && t.events == []
    requires t.delegate == Some(Delegate(true, true, true, true))
    ensures Advance(t, 1).page == 1 && Advance(t, 2).page == 2 && Advance(t, 3).page == 0
    ensures Advance(t, 3).events ==
              [NextButtonPressed, PageDidChange(1), NextButtonPressed, PageDidChange(2),
               NextButtonPressed, PageDidChange(0)]
  {
  }

  /** Touching the page control and letting the scroll complete lands on the dot it
      shows, when that dot names a screen. */
  lemma PageControlTouchLands(t: Tour)
    requires Valid(t) && t.primary.Some? && 0 <= t.primary.value.current < t.Count()
    ensures Settle(PageControlDidTouch(t)).page == t.primary.value.current
    ensures Settle(PageControlDidTouch(t)).primary == Some(t.primary.value)
  {
  }

  /** Dismissing with skip reports exactly what `close` reports and in addition
      stops the timer, after which no firing changes anything. */
  lemma DismissIsCloseWithoutTimer(t: Tour)
    ensures DismissWithSkip(t) == Close(t).(timerActive := false)
    ensures Close(t).page == t.page && Close(t).pending == t.pending
    ensures Close(t).timerActive == t.timerActive
    ensures TimerFires(DismissWithSkip(t)) == DismissWithSkip(t)
  {
  }

  /** After the view has appeared, tapping a dot of the primary page control that
      names a screen, letting its action run and the scroll complete lands on that
      screen, and both controls then show it. */
  lemma TapThenTouchLands(t: Tour, d: int)
    requires Valid(t) && t.primary.Some? && 0 <= d < t.Count()
    ensures var r := Settle(PageControlDidTouch(TapPageControl(ViewWillAppear(t), d)));
      && r.page == d
      && r.primary == Some(Indicator(t.Count(), d))
      && (r.secondary.Some? ==> r.secondary.value.current == d % SecondaryDots)
  {
  }

  /** The tour's auto-advance: `k` firings, each followed by the completion of its
      scroll, count down `k` times and move the page as `k` settled `nextPage` calls
      do, keeping the state valid. */
  lemma {:induction false} SettledTicksLaw(t: Tour, k: nat)
    requires Valid(t) && t.Count() > 0
    ensures Valid(SettledTicks(t, k)) && SettledTicks(t, k).screens == t.screens
    ensures SettledTicks(t, k).seconds == CountDowns(t.seconds, k)
    ensures SettledTicks(t, k).page == NextTargets(t.page, t.Count(), k)
    decreases k
  {
    if k > 0 {
      var c := t.(seconds := CountDown(t.seconds));
      var u := Settle(UpdateTimer(t));
      assert u == NextAndSettle(c);
      assert u.page == NextTarget(t.page, t.Count()) && Valid(u) && u.screens == t.screens
             && u.seconds == CountDown(t.seconds) by {
        NextLandsOnFollowing(c);
      }
      SettledTicksLaw(u, k - 1);
    }
  }

  /** After `k` firings, each followed by the completion of its scroll, the page has
      advanced by `k` modulo the number of screens and the countdown has gone `k`
      steps down, cyclically within 1..1000. */
  lemma AutoAdvanceLaw(t: Tour, k: nat)
    requires Valid(t) && t.Count() > 0
    ensures Valid(SettledTicks(t, k))
    ensures SettledTicks(t, k).page == (t.page + k) % t.Count()
    ensures SettledTicks(t, k).seconds == (t.seconds - 1 - k) % SecondsReset + 1
  {
    SettledTicksLaw(t, k);
    NextTargetsLaw(t.page, t.Count(), k);
    CountDownsLaw(t.seconds, k);
  }
}

=== FILE: guide_runs.dfy ===
/** Runs of the guide's state machine: the same transition applied several times. */
module GuideRuns {
  import opened Guide

  /** One user- or timer-driven `nextPage` whose animated scroll then completes. */
  function NextAndSettle(t: Tour): (r: Tour)
  {
    Settle(NextPage(t))
  }

  /** `k` consecutive settled `nextPage` calls. */
  function Advance(t: Tour, k: nat): (r: Tour)
    decreases k
  {
    if k == 0 then t else Advance(NextAndSettle(t), k - 1)
  }

  /** The page reached from `p` by following `nextPage`'s choice `k` times. */
  function NextTargets(p: int, n: int, k: nat): (r: int)
    decreases k
  {
    if k == 0 then p else NextTargets(NextTarget(p, n), n, k - 1)
  }

  /** `k` consecutive firings of the timer, with no animation completing in between. */
  function Ticks(t: Tour, k: nat): (r: Tour)
    decreases k
  {
    if k == 0 then t else Ticks(UpdateTimer(t), k - 1)
  }

  /** `k` firings of the timer, each followed by the completion of the animated scroll
      it started: the tour's auto-advance, since firings are seconds apart. */
  function SettledTicks(t: Tour, k: nat): (r: Tour)
    decreases k
  {
    if k == 0 then t else SettledTicks(Settle(UpdateTimer(t)), k - 1)
  }

  /** `k` decrements of the countdown. */
  function CountDowns(s: int, k: nat): (r: int)
    decreases k
  {
    if k == 0 then s else CountDowns(CountDown(s), k - 1)
  }

  /** `k` copies of `s`, one after another. */
  function Repeat<T>(s: seq<T>, k: nat): (r: seq<T>)
    ensures |r| == |s| * k
    decreases k
  {
    if k == 0 then [] else s + Repeat(s, k - 1)
  }
}

=== FILE: guide_scroll.dfy ===
/** `scrollViewDidScroll` evaluated at a rest position.

    On every scroll the controller computes, for each scroll-aware screen `i`, the
    progress `mx = (x + w - w·i) / w` from the content offset `x` and the view width
    `w`, and passes `(x, mx)` to the screen when `-2 < mx < 2`. When the offset is
    exactly `x = p·w` (every stop of a paging scroll view, and the end of every
    `gotoPage` scroll), `mx = p + 1 - i` is an integer and no floating point is
    involved.
 */
module GuideScroll {
  import opened Guide

  /** One `siGuideViewDidScroll(to:offset:)` call: the screen it went to, the content
      offset and the progress value. */
  datatype Notice = Notice(screen: nat, to: int, progress: int)

  /** The progress value of screen `i` when the scroll view rests on page `p`. */
  function Progress(p: nat, i: nat): int
  {
    p + 1 - i
  }

  /** The open window a progress value must fall in for the screen to be told. */
  predicate InWindow(mx: int)
  {
    -2 < mx < 2
  }

  /** Whether screen `i` of `screens` is told about a scroll resting on page `p` with
      view width `width`. With a zero width the controller divides zero by zero; the
      resulting NaN fails both comparisons, so nobody is told. */
  predicate Told(screens: seq<Screen>, p: nat, width: nat, i: nat)
    requires i < |screens|
  {
    width > 0 && screens[i].scrollAware && InWindow(Progress(p, i))
  }

  /** The notices delivered, in screen order, when the view rests on page `p`. */
  method DidScrollAtRest(screens: seq<Screen>, p: nat, width: nat) returns (notices: seq<Notice>)
    ensures forall j :: 0 <= j < |notices| ==>
              && notices[j].screen < |screens|
              && Told(screens, p, width, notices[j].screen)
              && notices[j].to == p * width
              && notices[j].progress == Progress(p, notices[j].screen)
    ensures forall j :: 0 <= j < |notices| ==>
              && p <= notices[j].screen <= p + 2
              && (notices[j].screen == p ==> notices[j].progress == 1)
    ensures forall j, k :: 0 <= j < k < |notices| ==> notices[j].screen < notices[k].screen
    ensures forall i :: 0 <= i < |screens| && Told(screens, p, width, i) ==>
              exists j :: 0 <= j < |notices| && notices[j].screen == i
  {
    notices := [];
    var x := p * width;
    var i := 0;
    while i < |screens|
      invariant 0 <= i <= |screens|
      invariant forall j :: 0 <= j < |notices| ==>
                  && notices[j].screen < i
                  && Told(screens, p, width, notices[j].screen)
                  && notices[j].to == x
                  && notices[j].progress == Progress(p, notices[j].screen)
      invariant forall j, k :: 0 <= j < k < |notices| ==> notices[j].screen < notices[k].screen
      invariant forall m :: 0 <= m < i && Told(screens, p, width, m) ==>
                  exists j :: 0 <= j < |notices| && notices[j].screen == m
    {
      if screens[i].scrollAware && width > 0 {
        var mx := Progress(p, i);
        if mx < 2 && mx > -2 {
          var before := notices;
          notices := notices + [Notice(i, x, mx)];
          forall m | 0 <= m < i + 1 && Told(screens, p, width, m)
            ensures exists j :: 0 <= j < |notices| && notices[j].screen == m
          {
            if m == i {
              assert notices[|before|].screen == m;
            } else {
              var j :| 0 <= j < |before| && before[j].screen == m;
              assert notices[j].screen == m;
            }
          }
        }
      }
      i := i + 1;
    }
  }
}

=== FILE: modular.dfy ===
/** Facts about Euclidean remainders used by the wrap-around laws of the guide. */
module Modular {

  lemma MulAtLeast(d: int, n: int)
    requires d >= 1 && n > 0
    ensures d * n >= n
  {
    if d > 1 {
      MulAtLeast(d - 1, n);
      assert d * n == (d - 1) * n + n;
    }
  }

  lemma DivMod(x: int, n: int)
    requires n > 0
    ensures x == (x / n) * n + x % n && 0 <= x % n < n
  {
  }

  /** The remainder is the only `r` in `0..n-1` with `x == q * n + r`. */
  lemma ModUnique(x: int, n: int, q: int, r: int)
    requires n > 0 && 0 <= r < n && x == q * n + r
    ensures x % n == r
  {
    DivMod(x, n);
    var d := q - x / n;
    assert d * n == x % n - r by {
      assert q * n - (x / n) * n == d * n;
    }
    if d > 0 {
      MulAtLeast(d, n);
    } else if d < 0 {
      MulAtLeast(-d, n);
    }
  }

  /** Adding one whole turn `n` leaves a residue modulo `n` unchanged. */
  lemma AddTurn(a: int, n: int)
    requires n > 0
    ensures (a + n) % n == a % n
  {
    DivMod(a, n);
    ModUnique(a + n, n, a / n + 1, a % n);
  }

  /** A value already in `0..n-1` is its own residue, also after one more turn. */
  lemma WrapBelow(a: int, n: int)
    ensures 0 <= a < n ==> a % n == a && (a + n) % n == a
  {
  }

  /** A value that is the residue of `p` plus one turn, for `p` in `0..n-1`, is `p`. */
  lemma OneTurnBack(x: int, p: int, n: int)
    requires 0 <= p < n && x == (p + n) % n
    ensures x == p
  {
    WrapBelow(p, n);
  }
}
